=== FILE: README.md ===
# Sandbox organizations: a verified model

This project models the sandbox lifecycle of the MBEE sandbox plugin. Every
user gets a private "sandbox" organization when the user is created. The
user's sandbox organization, its projects and their elements are removed when
the user is deleted. At startup, a backfill can create sandboxes for users who
have none. The plugin's homepage redirects a user to that user's sandbox.

The entity store is a class, `Persistence.Store`, with four tables that the
plugin's store calls update in place:

- users: username to optional sandbox id
- organizations: id to organization record
- projects: id to owning organization id
- elements: id to owning project id

The user documents the plugin receives are objects (`Persistence.UserDoc`).
`createSandbox` writes their `custom.sandbox` field.

The model has two layers:

- **Imperative.** `SandboxPlugin` runs the plugin's operations against the
  store, step by step, as the source does.
- **Pure.** `Lifecycle` describes each operation as a function of a snapshot
  of the store (`Entities.Db`).

Each imperative operation is proved to change the store exactly as its pure
function says. The properties are then proved about the functions in
`ProvisionProofs` and `ReclaimProofs`. `Tables` holds the semantics of the
store calls, one pure function per call, as exact-match filters.

The environment is replaced by parameters:

- the generated ids (`ids`, pairwise distinct and unused)
- whether the batch insert succeeds (`insertOk`)
- whether each user update succeeds (`updateOk`)
- for each deleted user, the store's answers to that user's delete chain
  (`Reply`): whether the organization delete acknowledged (`ok === 1`), and
  which call, if any, rejects
- the `retroactive` configuration setting, as a boolean argument

The source's comments and its code disagree on one point, and the model
follows the code:

- **The gate on a failed organization delete.** The comment at app.js:112
  ("If the org was not deleted correctly") and the ownership filter that
  app.js:107 calls a point of consistency say the chain should stop when the
  delete did not remove the organization. The condition at app.js:113 warns
  only when the reply is both not ok and did not delete one record.
- **What happens after the warning.** Even then, the code still deletes the
  projects under the sandbox id. It deletes no elements, because the
  captured id list is empty.

`Lifecycle.ReclaimUser` is the chain as written. `Lifecycle.ReclaimUserGated`
is the chain with the gate the comments call for. See "## Findings".

Files:

- `entities.dfy`: records and the store snapshot
- `tables.dfy`: the store calls as pure functions
- `lifecycle.dfy`: provisioning, reclaiming, the backfill selection and the redirect, on snapshots
- `persistence.dfy`: the store and user-document classes
- `plugin.dfy`: `createSandbox`, `deleteSandbox` and the backfill, imperatively
- `provision_proofs.dfy`: properties of provisioning and of the backfill
- `reclaim_proofs.dfy`: properties of reclaiming, the ownership gate, the round trip and the redirect

## Model

| member | source | states |
|---|---|---|
| Lifecycle.SandboxOrg | app.js:51-65 | the staged record has the generated id, the name `Sandbox (<username>)`, the user as creator and last modifier, and the sandbox mark |
| Lifecycle.Provision | app.js:42-92 | `createSandbox` on a snapshot: a failed insert changes nothing, and projects and elements are never touched |
| Lifecycle.ReclaimUser | app.js:103-134 | one user's delete chain as written, warning only when the reply is not ok and nothing was deleted: it never touches users, and it is rejected only at a call the reply rejects |
| Lifecycle.ReclaimUserGated | app.js:107-117 | the chain with the gate its comments call for: it never touches users, a warned chain leaves the store unchanged, and projects change only when the ownership filter matched |
| Lifecycle.ReclaimAll | app.js:100-135 | the batch of chains in batch order: one outcome per user, and users are never touched |
| Lifecycle.RedirectPath | app.js:165 | the redirect target starts at the root, is the root when the user has no sandbox id, and is followed by the sandbox id otherwise |
| Tables.DeleteOneOrg | app.js:105-110 | removes at most one organization; it removes one exactly when the record under the user's sandbox id was created by the user and is marked as a sandbox; other records keep their values |
| Persistence.Store.InsertMany | app.js:75 | the organization table becomes the batch inserted into the old one; the other tables are unchanged |
| Persistence.Store.UpdateOne | app.js:85 | the user's stored sandbox id is set, with no upsert; the other tables are unchanged |
| Persistence.Store.FindUsersWithoutSandbox | app.js:159 | returns one fresh document per user whose sandbox id is unset, each unlinked and with a distinct username, and exactly those users |
| Persistence.Store.DeleteOneOrganization | app.js:105-110 | applies the ownership-filtered delete to the organization table and returns the number of records deleted |
| Persistence.Store.FindProjects | app.js:120 | returns exactly the ids of the projects whose organization is the given id |
| Persistence.Store.DeleteManyProjects | app.js:127 | removes the projects under the given organization id, and nothing else |
| Persistence.Store.DeleteManyElements | app.js:130 | removes the elements whose project is in the given id set, and nothing else |
| SandboxPlugin.StageSandboxes | app.js:44-72 | builds one sandbox organization per user, in batch order, under that user's generated id; each document holds the id generated at its last occurrence in the batch |
| SandboxPlugin.UpdateUsers | app.js:80-89 | the user table becomes the per-user updates applied in batch order, skipping the ones that fail; the rest of the store is unchanged |
| SandboxPlugin.InsertAndLink | app.js:75-91 | a failed insert leaves the store unchanged; a successful one adds the staged organizations and then writes each user's sandbox id back |
| SandboxPlugin.CreateSandbox | app.js:42-92 | each document holds the id generated at its last occurrence in the batch, and the store changes exactly as provisioning the staged batch says |
| SandboxPlugin.DeleteUserSandbox | app.js:103-134 | one user's delete chain changes the store and ends exactly as the as-written reclaim function says, for every combination of store answers |
| SandboxPlugin.DeleteSandbox | app.js:100-135 | the batch of chains, run in batch order, changes the store and ends as the batch reclaim function says |
| SandboxPlugin.ProvisionFound | app.js:160 | creating sandboxes for the unlinked, distinct users that were found is provisioning of exactly those users |
| SandboxPlugin.ProvisionLacking | app.js:159-160 | the backfill selects every user without a sandbox id exactly once, and provisions exactly those users |
| SandboxPlugin.Backfill | app.js:157-161 | with the setting off, nothing happens; with it on, the selected users are exactly the unlinked ones, and they are provisioned; a fully successful run leaves no user unlinked |
| ProvisionProofs.SandboxNameDeterminesOwner | app.js:53 | the name `Sandbox (<username>)` determines the user it was built for |
| ProvisionProofs.SandboxOrgSoleOwner | app.js:54-65 | a sandbox organization gives its user read, write and admin rights, and gives nobody else any right |
| ProvisionProofs.InsertOrgsKeys | app.js:75 | the batch insert adds exactly the batch's ids to the organization table |
| ProvisionProofs.InsertOrgsKeeps | app.js:75 | the batch insert leaves organizations whose ids are outside the batch as they were |
| ProvisionProofs.InsertOrgsStores | app.js:75 | when a batch's ids are distinct, each record of the batch is stored under its id |
| ProvisionProofs.InsertOrgsKeyed | app.js:75 | the batch insert keeps every organization stored under its own id |
| ProvisionProofs.ProvisionAddsOneOrgPerUser | app.js:47-75 | a successful provisioning adds exactly the generated ids to the organization table: one new organization per user |
| ProvisionProofs.ProvisionStoresSandboxOrgs | app.js:49-75 | after provisioning, existing organizations are unchanged, and under each generated id is its user's sandbox organization, which passes that user's ownership filter |
| ProvisionProofs.OrgsToCreateForBatch | app.js:44-68 | the staged records are, in batch order, each user's sandbox organization under that user's generated id |
| ProvisionProofs.ProvisionKeepsOrgsKeyed | app.js:51-75 | provisioning keeps every organization stored under its own id |
| ProvisionProofs.WriteBackKeys | app.js:85 | the user updates neither add nor remove users |
| ProvisionProofs.WriteBackOutside | app.js:80-86 | a user that no update names keeps its stored sandbox id |
| ProvisionProofs.WriteBackAt | app.js:80-86 | for distinct users, a stored user ends with the sandbox id its own update wrote if that update succeeded, and keeps its previous sandbox id otherwise |
| ProvisionProofs.ProvisionLinksEachUser | app.js:71-89 | after provisioning, each stored user of the batch is linked to its generated id exactly when the insert and that user's update both succeeded; otherwise it keeps its previous sandbox id |
| ProvisionProofs.ProvisionFrame | app.js:74-91 | provisioning touches no project, no element and no user outside the batch; a failed insert changes nothing |
| ProvisionProofs.LackingAfterUpdate | app.js:85 | writing a user's sandbox id removes that user from the backfill selection |
| ProvisionProofs.WriteBackLacking | app.js:80-86 | the backfill selection loses exactly the users whose update succeeded, and gains nobody |
| ProvisionProofs.BackfillShrinksSelection | app.js:157-161 | after provisioning, the backfill selection is the old selection minus the users linked by a successful insert and update |
| ProvisionProofs.BackfillSecondSelectionEmpty | app.js:157-161 | once a fully successful backfill has covered every unlinked user, a second backfill selects nobody |
| ReclaimProofs.ReclaimUserOrgs | app.js:105-110 | one chain never touches users and never alters an organization; an organization is removed exactly when the delete went through, the organization is the user's sandbox, and the three-field ownership filter matches it |
| ReclaimProofs.ReclaimUserOutcome | app.js:111-133 | a rejected chain stops at exactly the call that rejected; with no rejection the chain runs to the end; it warns exactly when the reply is not ok and nothing matched |
| ReclaimProofs.ReclaimUserProjects | app.js:119-128 | a project is removed exactly when the chain reached the project delete and the project is under the user's sandbox id, whether or not the organization was removed |
| ReclaimProofs.ReclaimUserElements | app.js:122-130 | elements are deleted using the project ids captured before the project delete; an element is removed exactly when the chain ended without a warning and its project was under the sandbox id |
| ReclaimProofs.ReclaimUserCascade | app.js:119-130 | after a completed chain, no project is left under the sandbox id; after a completed chain with no warning, no element is left in those projects; a warned chain deletes no element |
| ReclaimProofs.ReclaimAllFrame | app.js:100-135 | a batch of chains never touches users and only removes records; there is one outcome per user; a project is removed only under the sandbox id of a chain that reached the project delete, and an element only when its project was among those that a completed, unwarned chain captured when it started |
| ReclaimProofs.ReclaimAllIsolatesFailures | app.js:103-134 | in a batch, a chain is rejected only at a call its own reply rejects, and a chain whose reply rejects nothing runs to the end, whatever the other chains did |
| ReclaimProofs.ReclaimAllOwnershipGate | app.js:105-110 | an organization is removed only if a user of the batch has it as sandbox id, created it, and it is marked as a sandbox |
| ReclaimProofs.ReclaimAllRemovesOwned | app.js:103-110 | every user whose delete went through and who owns the sandbox that user's id names loses that organization |
| ReclaimProofs.ReclaimAllCascade | app.js:100-135 | no project is left under the sandbox id of any user whose chain completed, and no element is left in the projects that a completed, unwarned chain captured when it started, later chains included |
| ReclaimProofs.ReclaimAllKeepsOrgsKeyed | app.js:100-135 | a batch of deletes keeps every organization stored under its own id |
| ReclaimProofs.ReclaimAllRemovesByRecordId | app.js:105-110 | with organizations stored under their own ids, a removed organization's `_id` is the sandbox id of a batch user who created it and whose delete went through, and it is marked as a sandbox |
| ReclaimProofs.ForeignOrganizationLosesItsProjects | app.js:113-130 | as written: when a user's sandbox id names an organization the user does not own and the store acknowledges the delete, that organization stays, but its projects and elements are deleted |
| ReclaimProofs.GatedReclaimRespectsOwnership | app.js:112-117 | with the intended gate, a chain whose ownership filter matches nothing leaves the whole store unchanged |
| ReclaimProofs.GatedReclaimAgreesWhenOwned | app.js:111-130 | when the ownership filter matches, the gated chain and the chain as written have the same effect |
| ReclaimProofs.ProvisionOne | app.js:42-92 | creating a sandbox for one user, with all calls succeeding, adds that user's sandbox organization and links the user to it |
| ReclaimProofs.ProvisionThenReclaimRestores | app.js:42-135 | in a store where every project belongs to an organization, creating and then deleting a user's sandbox restores organizations, projects and elements; only the user's sandbox id remains |
| ReclaimProofs.RedirectNamesSandbox | app.js:164-166 | the redirect path starts at the root; it names the user's sandbox organization exactly when the user has a non-empty sandbox id; otherwise it is the root |

## Left out

- The web framework, `authenticate` and the route logger: only the redirect's target path is modelled (`Lifecycle.RedirectPath`).
- Registering the `users-created` and `users-deleted` listeners on the event bus: `CreateSandbox` and `DeleteSandbox` are the listeners' bodies.
- Logging: the info and warning lines are not modelled. A warning shows up as `Done(true)` when the chain then runs to the end; when the chain warns and its project or element delete then rejects, the outcome is `Rejected(ProjectDelete)` or `Rejected(ElementDelete)` and does not record the warning.
- The id generator: generated ids are the `ids` parameter. The model requires them to be pairwise distinct and not already used as organization ids.
- Timestamps (`createdOn`, `updatedOn`): the clock is not modelled, and the organization record has no timestamp fields.
- The configuration read: the `retroactive` setting is the `Backfill` argument.
- Concurrent user updates in `createSandbox`: the source issues all `User.updateOne` calls at once and waits with `Promise.all`. The model applies them in batch order. The order matters only when two documents of a batch share a username.
- A failing backfill query: `User.find` in the backfill has no `catch`, and its promise can reject. The model's find always succeeds. A rejected find changes nothing in the store, which is the same effect as a run with `insertOk` false.
- Promise scheduling: all users' delete chains run at once in the source. The model runs them one after another, in batch order. In the source they also share one `projectIDs` variable. The model gives each chain its own, so it does not capture a chain deleting elements with another user's captured ids.
- The persistence layer's internals (schema validation, driver errors and their messages): each call either takes effect or rejects with no effect, as its parameter says.
- An unset sandbox id in a filter: the model treats it as matching no record, because every stored organization id and project reference is set.
- User custom data other than `sandbox`: `updateOne` writes the whole custom object. The model keeps only the sandbox field.
- Persistence.Store.FindUsersWithoutSandbox: the source query returns full user documents; the model returns documents with only the username and the (unset) sandbox id.

## Findings

| source | as written | input that shows it | evidently intended | confidence | as-written member | corrected member |
|---|---|---|---|---|---|---|
| app.js:113-130 | the chain stops only when the delete reply is both not ok and did not delete one record; if the reply is ok and nothing matched, the projects under the sandbox id and their elements are still deleted | a user whose sandbox id names an organization that user did not create (`alice` pointing at `o1`, created by `bob`, not marked as a sandbox, with project `p1` and element `e1`); the store answers `ok: 1, deletedCount: 0` | warn and stop whenever the delete did not remove exactly one organization, leaving projects and elements in place | medium, not executed | ReclaimProofs.ForeignOrganizationLosesItsProjects | ReclaimProofs.GatedReclaimRespectsOwnership |

=== FILE: entities.dfy ===
/**
 * The records the sandbox plugin reads and writes: users, organizations,
 * projects and elements, and a snapshot of the four tables that hold them.
 */
module Entities {

  datatype Option<+T> = None | Some(value: T)

  type Username = string
  type OrgId = string
  type ProjectId = string
  type ElementId = string

  /** The rights an organization's permission map grants a user. */
  datatype Permission = Read | Write | Admin

  /**
   * An organization record. `sandboxMarked` stands for the custom-data field
   * `custom.sandbox` holding exactly the boolean `true`. The audit timestamps
   * `createdOn` and `updatedOn` are not part of this model.
   */
  datatype Organization = Organization(
    id: OrgId,
    name: string,
    permissions: map<Username, seq<Permission>>,
    createdBy: Username,
    lastModifiedBy: Username,
    sandboxMarked: bool)

  /** The part of a user record the plugin uses: its key and `custom.sandbox`. */
  datatype User = User(username: Username, sandbox: Option<OrgId>)

  /**
   * The four tables of the entity store. A user is stored under its username
   * with its optional sandbox id, a project under its id with the id of its
   * organization, an element under its id with the id of its project.
   */
  datatype Db = Db(
    users: map<Username, Option<OrgId>>,
    orgs: map<OrgId, Organization>,
    projects: map<ProjectId, OrgId>,
    elements: map<ElementId, ProjectId>)

  /** The rights that `o`'s permission map gives user `u`. */
  function Rights(o: Organization, u: Username): set<Permission> {
    if u in o.permissions then set p | p in o.permissions[u] else {}
  }

  /** Every organization is stored under its own id. */
  predicate KeyedById(orgs: map<OrgId, Organization>) {
    forall k | k in orgs :: orgs[k].id == k
  }
}

=== FILE: lifecycle.dfy ===
/**
 * The sandbox lifecycle as pure functions over a snapshot of the store:
 * provisioning a batch of users, reclaiming a batch of users, the backfill
 * selection and the homepage redirect. The imperative plugin in plugin.dfy
 * is proved to change the store exactly as these functions say.
 */
module Lifecycle {
  import opened Entities
  import opened Tables

  // ---------------------------------------------------------------------------
  // Provisioning
  // ---------------------------------------------------------------------------

  /** The display name of a user's sandbox organization. */
  function SandboxName(username: Username): string {
    "Sandbox (" + username + ")"
  }

  /**
   * The organization record staged for a new user: named after the user,
   * created and last modified by the user and marked as a sandbox.
   */
  function SandboxOrg(id: OrgId, username: Username): (o: Organization)
    ensures o.id == id && o.name == SandboxName(username)
    ensures o.createdBy == username && o.lastModifiedBy == username && o.sandboxMarked
  {
    Organization(id, SandboxName(username), map[username := [Read, Write, Admin]], username, username, true)
  }

  /** What the id generator promises: the ids are pairwise distinct and unused. */
  predicate FreshIds(ids: seq<OrgId>, orgs: map<OrgId, Organization>) {
    && (forall i, j | 0 <= i < j < |ids| :: ids[i] != ids[j])
    && (forall i | 0 <= i < |ids| :: ids[i] !in orgs)
  }

  /** No two users of the batch share a username. */
  predicate DistinctNames(batch: seq<User>) {
    forall i, j | 0 <= i < j < |batch| :: batch[i].username != batch[j].username
  }

  function Usernames(batch: seq<User>): (names: seq<Username>)
    ensures |names| == |batch|
    ensures forall i | 0 <= i < |batch| :: names[i] == batch[i].username
  {
    if batch == [] then [] else Usernames(batch[..|batch| - 1]) + [batch[|batch| - 1].username]
  }

  /** The batch once the staging loop has stored each user's new id in `custom.sandbox`. */
  function Stage(batch: seq<User>, ids: seq<OrgId>): (staged: seq<User>)
    requires |ids| == |batch|
    ensures |staged| == |batch|
    ensures forall i | 0 <= i < |batch| :: staged[i] == User(batch[i].username, Some(ids[i]))
  {
    if batch == [] then []
    else
      var n := |batch| - 1;
      Stage(batch[..n], ids[..n]) + [User(batch[n].username, Some(ids[n]))]
  }

  /** `orgsToCreate`: one sandbox organization per user, in batch order. */
  function OrgsToCreate(names: seq<Username>, ids: seq<OrgId>): (orgs: seq<Organization>)
    requires |ids| == |names|
    ensures |orgs| == |names|
    ensures forall i | 0 <= i < |names| :: orgs[i] == SandboxOrg(ids[i], names[i])
  {
    if names == [] then []
    else
      var n := |names| - 1;
      OrgsToCreate(names[..n], ids[..n]) + [SandboxOrg(ids[n], names[n])]
  }

  /**
   * The per-user `User.updateOne` calls issued after a successful insert, in
   * batch order; `updateOk[i]` says whether the i-th update succeeded.
   */
  function WriteBack(users: map<Username, Option<OrgId>>, staged: seq<User>, updateOk: seq<bool>)
    : map<Username, Option<OrgId>>
    requires |updateOk| == |staged|
    decreases |staged|
  {
    if staged == [] then users
    else
      var n := |staged| - 1;
      var before := WriteBack(users, staged[..n], updateOk[..n]);
      if updateOk[n] then UpdateUserSandbox(before, staged[n].username, staged[n].sandbox) else before
  }

  /**
   * `createSandbox` on a snapshot, given the batch after staging: a failed
   * batch insert changes nothing; a successful one adds every staged
   * organization and writes each user's custom data back.
   */
  function Provision(db: Db, staged: seq<User>, ids: seq<OrgId>, insertOk: bool, updateOk: seq<bool>): (r: Db)
    requires |ids| == |staged| && |updateOk| == |staged|
    ensures !insertOk ==> r == db
    ensures r.projects == db.projects && r.elements == db.elements
  {
    if !insertOk then db
    else db.(orgs := InsertOrgs(db.orgs, OrgsToCreate(Usernames(staged), ids)),
             users := WriteBack(db.users, staged, updateOk))
  }

  /** The users the backfill query returns, before staging: none has a sandbox id. */
  function Unlinked(names: seq<Username>): (batch: seq<User>)
    ensures |batch| == |names|
    ensures forall i | 0 <= i < |names| :: batch[i] == User(names[i], None)
  {
    if names == [] then [] else Unlinked(names[..|names| - 1]) + [User(names[|names| - 1], None)]
  }

  // ---------------------------------------------------------------------------
  // Reclaiming
  // ---------------------------------------------------------------------------

  /** The store calls of one user's delete chain, in order. */
  datatype Step = OrgDelete | ProjectFind | ProjectDelete | ElementDelete

  /**
   * What the store answers one user's chain: `ack` is `query.ok === 1` in the
   * reply to the organization delete, and `rejectAt`, when present, is the
   * call whose promise rejects (that call has no effect and the chain ends
   * in its catch handler).
   */
  datatype Reply = Reply(ack: bool, rejectAt: Option<Step>)

  /** How one user's chain ended: it ran to the end (having warned or not), or a call rejected. */
  datatype Outcome = Done(warned: bool) | Rejected(at: Step)

  /**
   * One user's delete chain, as written: delete the organization under the
   * ownership filter; warn only when the reply is both not ok and did not
   * delete one record, and then capture no project ids; otherwise capture the
   * ids of the projects under the sandbox id. Either way, delete the projects
   * under the sandbox id, then the elements of the captured projects.
   */
  function ReclaimUser(db: Db, u: User, reply: Reply): (r: (Db, Outcome))
    ensures r.0.users == db.users
    ensures r.1.Rejected? ==> reply.rejectAt == Some(r.1.at)
  {
    if reply.rejectAt == Some(OrgDelete) then (db, Rejected(OrgDelete))
    else
      var deleted := DeleteOneOrg(db.orgs, u.sandbox, u.username);
      var db1 := db.(orgs := deleted.0);
      var warned := !reply.ack && deleted.1 != 1;
      if !warned && reply.rejectAt == Some(ProjectFind) then (db1, Rejected(ProjectFind))
      else
        var projectIds := if warned then {} else ProjectsUnder(db1.projects, u.sandbox);
        if reply.rejectAt == Some(ProjectDelete) then (db1, Rejected(ProjectDelete))
        else
          var db2 := db1.(projects := DeleteProjectsUnder(db1.projects, u.sandbox));
          if reply.rejectAt == Some(ElementDelete) then (db2, Rejected(ElementDelete))
          else (db2.(elements := DeleteElementsIn(db2.elements, projectIds)), Done(warned))
  }

  /**
   * The delete chain with the gate its comments call for ("if the org was not
   * deleted correctly", app.js:112, under the filter that app.js:107 calls the
   * point of consistency): when the organization delete did not remove
   * exactly one record, warn and stop before touching projects or elements.
   */
  function ReclaimUserGated(db: Db, u: User, reply: Reply): (r: (Db, Outcome))
    ensures r.0.users == db.users
    ensures r.1 == Done(true) ==> r.0 == db
    ensures r.0.projects != db.projects ==> OwnsSandbox(db.orgs, u.sandbox, u.username)
  {
    if reply.rejectAt == Some(OrgDelete) then (db, Rejected(OrgDelete))
    else
      var deleted := DeleteOneOrg(db.orgs, u.sandbox, u.username);
      var db1 := db.(orgs := deleted.0);
      if deleted.1 != 1 then (db1, Done(true))
      else if reply.rejectAt == Some(ProjectFind) then (db1, Rejected(ProjectFind))
      else
        var projectIds := ProjectsUnder(db1.projects, u.sandbox);
        if reply.rejectAt == Some(ProjectDelete) then (db1, Rejected(ProjectDelete))
        else
          var db2 := db1.(projects := DeleteProjectsUnder(db1.projects, u.sandbox));
          if reply.rejectAt == Some(ElementDelete) then (db2, Rejected(ElementDelete))
          else (db2.(elements := DeleteElementsIn(db2.elements, projectIds)), Done(false))
  }

  /**
   * `deleteSandbox` on a snapshot: each user's chain in batch order, each
   * starting from the state the previous one left.
   */
  function ReclaimAll(db: Db, users: seq<User>, replies: seq<Reply>): (r: (Db, seq<Outcome>))
    requires |replies| == |users|
    ensures |r.1| == |users| && r.0.users == db.users
    decreases |users|
  {
    if users == [] then (db, [])
    else
      var n := |users| - 1;
      var before := ReclaimAll(db, users[..n], replies[..n]);
      var last := ReclaimUser(before.0, users[n], replies[n]);
      (last.0, before.1 + [last.1])
  }

  // ---------------------------------------------------------------------------
  // Homepage redirect
  // ---------------------------------------------------------------------------

  /** `"/" + (sandbox || "")`: an absent id, like the empty one, gives the root. */
  function RedirectPath(sandbox: Option<OrgId>): (path: string)
    ensures |path| >= 1 && path[0] == '/'
    ensures sandbox.None? ==> path == "/"
    ensures sandbox.Some? ==> path[1..] == sandbox.value
  {
    "/" + (if sandbox.Some? then sandbox.value else "")
  }

  /** The organization whose page a path `/<orgid>` is; the root names none. */
  function OrgOfPath(path: string): Option<OrgId> {
    if |path| > 1 && path[0] == '/' then Some(path[1..]) else None
  }
}

=== FILE: persistence.dfy ===
/**
 * The entity store as an object whose four tables the plugin updates in
 * place, and the in-memory user documents that events and queries hand to
 * the plugin.
 */
module Persistence {
  import opened Entities
  import opened Tables

  /** A user document held in memory; the plugin writes its `custom.sandbox`. */
  class UserDoc {
    const username: Username
    var sandbox: Option<OrgId>

    constructor (username: Username, sandbox: Option<OrgId>)
      ensures this.username == username && this.sandbox == sandbox
    {
      this.username := username;
      this.sandbox := sandbox;
    }
  }

  /**
   * The usernames of a batch of documents. This is `Usernames(Values(docs))`
   * (see `SandboxPlugin.UsernamesOfValues`), but reads no object: usernames
   * are constant, so the records staged for a batch stay the same while the
   * staging loop writes the documents' sandbox ids.
   */
  function Names(docs: seq<UserDoc>): (names: seq<Username>)
    ensures |names| == |docs|
    ensures forall i | 0 <= i < |docs| :: names[i] == docs[i].username
  {
    if docs == [] then [] else Names(docs[..|docs| - 1]) + [docs[|docs| - 1].username]
  }

  /** The current values of a batch of documents. */
  function Values(docs: seq<UserDoc>): (vals: seq<User>)
    reads docs
    ensures |vals| == |docs|
    ensures forall i | 0 <= i < |docs| :: vals[i] == User(docs[i].username, docs[i].sandbox)
  {
    if docs == [] then [] else Values(docs[..|docs| - 1]) + [User(docs[|docs| - 1].username, docs[|docs| - 1].sandbox)]
  }

  class Store {
    var users: map<Username, Option<OrgId>>
    var orgs: map<OrgId, Organization>
    var projects: map<ProjectId, OrgId>
    var elements: map<ElementId, ProjectId>

    constructor (db: Db)
      ensures Snapshot() == db
    {
      users, orgs, projects, elements := db.users, db.orgs, db.projects, db.elements;
    }

    function Snapshot(): Db
      reads this
    {
      Db(users, orgs, projects, elements)
    }

    /** `Organization.insertMany(batch)`, one atomic store call. */
    method InsertMany(batch: seq<Organization>)
      modifies this
      ensures Snapshot() == old(Snapshot()).(orgs := InsertOrgs(old(orgs), batch))
    {
      orgs := InsertOrgs(orgs, batch);
    }

    /** `User.updateOne({ _id: username }, { custom })` with `custom.sandbox` set to `sandbox`. */
    method UpdateOne(username: Username, sandbox: Option<OrgId>)
      modifies this
      ensures Snapshot() == old(Snapshot()).(users := UpdateUserSandbox(old(users), username, sandbox))
    {
      users := UpdateUserSandbox(users, username, sandbox);
    }

    /**
     * `User.find({ 'custom.sandbox': { $exists: false } })`: one fresh document
     * per user without a sandbox id, in an order the store chooses.
     */
    method FindUsersWithoutSandbox() returns (found: seq<UserDoc>)
      ensures |found| == |Lacking(users)|
      ensures forall u :: u in Names(found) <==> u in Lacking(users)
      ensures forall i | 0 <= i < |found| :: found[i].sandbox == None && fresh(found[i])
      ensures forall i, j | 0 <= i < j < |found| :: found[i].username != found[j].username
    {
      found := [];
      var remaining := Lacking(users);
      while remaining != {}
        invariant remaining <= Lacking(users)
        invariant |found| + |remaining| == |Lacking(users)|
        invariant forall u :: u in Names(found) <==> u in Lacking(users) - remaining
        invariant forall i | 0 <= i < |found| :: found[i].sandbox == None && fresh(found[i])
        invariant forall i, j | 0 <= i < j < |found| :: found[i].username != found[j].username
        decreases remaining
      {
        var u :| u in remaining;
        assert forall i | 0 <= i < |found| :: found[i].username in Names(found);
        var doc := new UserDoc(u, None);
        found := found + [doc];
        remaining := remaining - {u};
      }
    }

    /** `Organization.deleteOne` under the ownership filter; returns `deletedCount`. */
    method DeleteOneOrganization(id: Option<OrgId>, owner: Username) returns (deletedCount: nat)
      modifies this
      ensures Snapshot() == old(Snapshot()).(orgs := DeleteOneOrg(old(orgs), id, owner).0)
      ensures deletedCount == DeleteOneOrg(old(orgs), id, owner).1
    {
      var r := DeleteOneOrg(orgs, id, owner);
      orgs, deletedCount := r.0, r.1;
    }

    /** `Project.find({ org }).map(p => p._id)`: exactly the projects under `org`. */
    method FindProjects(org: Option<OrgId>) returns (ids: set<ProjectId>)
      ensures forall p :: p in ids <==> p in projects && Some(projects[p]) == org
    {
      ids := ProjectsUnder(projects, org);
    }

    /** `Project.deleteMany({ org })`. */
    method DeleteManyProjects(org: Option<OrgId>)
      modifies this
      ensures Snapshot() == old(Snapshot()).(projects := DeleteProjectsUnder(old(projects), org))
    {
      projects := DeleteProjectsUnder(projects, org);
    }

    /** `Element.deleteMany({ project: { $in: ids } })`. */
    method DeleteManyElements(ids: set<ProjectId>)
      modifies this
      ensures Snapshot() == old(Snapshot()).(elements := DeleteElementsIn(old(elements), ids))
    {
      elements := DeleteElementsIn(elements, ids);
    }
  }
}

=== FILE: plugin.dfy ===
/**
 * The plugin's operations as they run against the store: creating sandboxes
 * for a batch of users, deleting them for a batch of users, and the startup
 * backfill. Each is proved to change the store exactly as the corresponding
 * function of the Lifecycle module says.
 */
module SandboxPlugin {
  import opened Entities
  import opened Tables
  import opened Lifecycle
  import opened Persistence
  import ProvisionProofs

  /** No document after position `i` is the same object as the one at `i`. */
  predicate LastOccurrence(users: seq<UserDoc>, i: int)
    requires 0 <= i < |users|
  {
    forall j | i < j < |users| :: users[j] != users[i]
  }

  /**
   * The `forEach` loop of `createSandbox`: builds `orgsToCreate`, one sandbox
   * organization per user under the id generated for it, and stores that id
   * in the user's `custom.sandbox`.
   */
  method StageSandboxes(users: seq<UserDoc>, ids: seq<OrgId>) returns (orgsToCreate: seq<Organization>)
    requires |ids| == |users|
    modifies users
    ensures orgsToCreate == OrgsToCreate(Names(users), ids)
    ensures forall i | 0 <= i < |users| && LastOccurrence(users, i) :: users[i].sandbox == Some(ids[i])
  {
    orgsToCreate := [];
    for i := 0 to |users|
      invariant |orgsToCreate| == i
      invariant forall k | 0 <= k < i :: orgsToCreate[k] == SandboxOrg(ids[k], users[k].username)
      invariant forall k | 0 <= k < i && (forall j | k < j < i :: users[j] != users[k]) :: users[k].sandbox == Some(ids[k])
    {
      var org := SandboxOrg(ids[i], users[i].username);
      orgsToCreate := orgsToCreate + [org];
      users[i].sandbox := Some(ids[i]);
    }
  }

  /** The per-user `User.updateOne` calls, `updateOk[i]` saying whether the i-th succeeds. */
  method UpdateUsers(store: Store, users: seq<UserDoc>, updateOk: seq<bool>)
    requires |updateOk| == |users|
    modifies store
    ensures store.Snapshot() == old(store.Snapshot()).(users := WriteBack(old(store.users), Values(users), updateOk))
  {
    for i := 0 to |users|
      invariant store.Snapshot() == old(store.Snapshot()).(users := WriteBack(old(store.users), Values(users)[..i], updateOk[..i]))
    {
      assert Values(users)[..i + 1][..i] == Values(users)[..i];
      assert updateOk[..i + 1][..i] == updateOk[..i];
      if updateOk[i] {
        store.UpdateOne(users[i].username, users[i].sandbox);
      }
    }
    assert Values(users)[..|users|] == Values(users);
    assert updateOk[..|users|] == updateOk;
  }

  /**
   * The promise chain of `createSandbox`: the batch insert and, once it has
   * succeeded, the per-user updates.
   */
  method InsertAndLink(store: Store, orgsToCreate: seq<Organization>, users: seq<UserDoc>, ids: seq<OrgId>, insertOk: bool, updateOk: seq<bool>)
    requires |ids| == |users| && |updateOk| == |users|
    requires orgsToCreate == OrgsToCreate(Names(users), ids)
    modifies store
    ensures store.Snapshot() == Provision(old(store.Snapshot()), Values(users), ids, insertOk, updateOk)
  {
    if insertOk {
      store.InsertMany(orgsToCreate);
      UpdateUsers(store, users, updateOk);
      UsernamesOfValues(users);
    }
  }

  /** The usernames of a batch's current values are the documents' usernames. */
  lemma UsernamesOfValues(docs: seq<UserDoc>)
    ensures Usernames(Values(docs)) == Names(docs)
  {
  }

  /**
   * `createSandbox(users)`. `ids[i]` is the id generated for the i-th user,
   * `insertOk` whether the batch insert succeeds and `updateOk[i]` whether the
   * i-th user's update does. A document that occurs twice in the batch keeps
   * the id of its last occurrence, which is the id both its updates write.
   */
  method CreateSandbox(store: Store, users: seq<UserDoc>, ids: seq<OrgId>, insertOk: bool, updateOk: seq<bool>)
    requires |ids| == |users| && |updateOk| == |users|
    requires FreshIds(ids, store.orgs)
    modifies store, users
    ensures forall i | 0 <= i < |users| && LastOccurrence(users, i) :: users[i].sandbox == Some(ids[i])
    ensures store.Snapshot() == Provision(old(store.Snapshot()), Values(users), ids, insertOk, updateOk)
  {
    var orgsToCreate := StageSandboxes(users, ids);
    InsertAndLink(store, orgsToCreate, users, ids, insertOk, updateOk);
  }

  /**
   * The body of `deleteSandbox`'s loop for one user: the chain of store calls
   * that `reply` lets through. The captured ids are local to the chain; the
   * source keeps them in one variable shared by the chains of all users of
   * the batch, which matters only when chains interleave.
   */
  method DeleteUserSandbox(store: Store, user: UserDoc, reply: Reply) returns (outcome: Outcome)
    modifies store
    ensures (store.Snapshot(), outcome) == ReclaimUser(old(store.Snapshot()), User(user.username, user.sandbox), reply)
  {
    if reply.rejectAt == Some(OrgDelete) {
      return Rejected(OrgDelete);
    }
    var deletedCount := store.DeleteOneOrganization(user.sandbox, user.username);
    var warned := !reply.ack && deletedCount != 1;
    var projectIds: set<ProjectId>;
    if warned {
      projectIds := {};
    } else {
      if reply.rejectAt == Some(ProjectFind) {
        return Rejected(ProjectFind);
      }
      projectIds := store.FindProjects(user.sandbox);
      assert projectIds == ProjectsUnder(store.projects, user.sandbox);
    }
    if reply.rejectAt == Some(ProjectDelete) {
      return Rejected(ProjectDelete);
    }
    store.DeleteManyProjects(user.sandbox);
    if reply.rejectAt == Some(ElementDelete) {
      return Rejected(ElementDelete);
    }
    store.DeleteManyElements(projectIds);
    outcome := Done(warned);
  }

  /** `deleteSandbox(users)`: every user's chain, `replies[i]` being the store's answers to the i-th. */
  method DeleteSandbox(store: Store, users: seq<UserDoc>, replies: seq<Reply>) returns (outcomes: seq<Outcome>)
    requires |replies| == |users|
    modifies store
    ensures (store.Snapshot(), outcomes) == ReclaimAll(old(store.Snapshot()), Values(users), replies)
  {
    outcomes := [];
    ghost var vals := Values(users);
    for i := 0 to |users|
      invariant (store.Snapshot(), outcomes) == ReclaimAll(old(store.Snapshot()), vals[..i], replies[..i])
    {
      assert vals[..i + 1][..i] == vals[..i];
      assert replies[..i + 1][..i] == replies[..i];
      var outcome := DeleteUserSandbox(store, users[i], replies[i]);
      outcomes := outcomes + [outcome];
    }
    assert vals[..|users|] == vals;
    assert replies[..|users|] == replies;
  }

  /** `createSandbox` applied to the documents the backfill found: distinct users, none linked yet. */
  method ProvisionFound(store: Store, found: seq<UserDoc>, ids: seq<OrgId>, insertOk: bool, updateOk: seq<bool>)
    requires |ids| == |found| && |updateOk| == |found|
    requires FreshIds(ids, store.orgs)
    requires forall i | 0 <= i < |found| :: found[i].sandbox == None
    requires forall i, j | 0 <= i < j < |found| :: found[i].username != found[j].username
    modifies store, found
    ensures store.Snapshot() == Provision(old(store.Snapshot()), Stage(Unlinked(Names(found)), ids), ids, insertOk, updateOk)
  {
    forall i | 0 <= i < |found| ensures LastOccurrence(found, i) {
      forall j | i < j < |found| ensures found[j] != found[i] {
        assert found[i].username != found[j].username;
      }
    }
    CreateSandbox(store, found, ids, insertOk, updateOk);
    assert Values(found) == Stage(Unlinked(Names(found)), ids);
  }

  /**
   * The backfill's query and the `createSandbox` call on its result: every
   * user without a sandbox id is selected once, and the store changes as
   * creating sandboxes for exactly those users says.
   */
  method ProvisionLacking(store: Store, ids: seq<OrgId>, insertOk: bool, updateOk: seq<bool>)
    returns (selected: seq<Username>)
    requires |ids| == |Lacking(store.users)| && |updateOk| == |ids| && FreshIds(ids, store.orgs)
    modifies store
    ensures |selected| == |ids|
    ensures forall i, j | 0 <= i < j < |selected| :: selected[i] != selected[j]
    ensures forall u :: u in selected <==> u in Lacking(old(store.users))
    ensures store.Snapshot() == Provision(old(store.Snapshot()), Stage(Unlinked(selected), ids), ids, insertOk, updateOk)
  {
    var found := store.FindUsersWithoutSandbox();
    selected := Names(found);
    assert forall u :: u in selected <==> u in Lacking(old(store.users));
    ProvisionFound(store, found, ids, insertOk, updateOk);
  }

  /**
   * The startup backfill: when `retroactive` is set, find the users without a
   * sandbox id and create sandboxes for all of them. Returns the usernames
   * found, in the order the store gave them.
   */
  method Backfill(store: Store, retroactive: bool, ids: seq<OrgId>, insertOk: bool, updateOk: seq<bool>)
    returns (selected: seq<Username>)
    requires retroactive ==> |ids| == |Lacking(store.users)| && |updateOk| == |ids| && FreshIds(ids, store.orgs)
    modifies store
    ensures !retroactive ==> selected == [] && store.Snapshot() == old(store.Snapshot())
    ensures retroactive ==> |selected| == |ids|
    ensures retroactive ==> forall i, j | 0 <= i < j < |selected| :: selected[i] != selected[j]
    ensures retroactive ==> forall u :: u in selected <==> u in Lacking(old(store.users))
    ensures retroactive ==> store.Snapshot() == Provision(old(store.Snapshot()), Stage(Unlinked(selected), ids), ids, insertOk, updateOk)
    ensures retroactive && insertOk && (forall i | 0 <= i < |updateOk| :: updateOk[i]) ==> Lacking(store.users) == {}
  {
    selected := [];
    if retroactive {
      ghost var before := store.Snapshot();
      selected := ProvisionLacking(store, ids, insertOk, updateOk);
      if insertOk && forall i | 0 <= i < |updateOk| :: updateOk[i] {
        ProvisionProofs.BackfillSecondSelectionEmpty(before, selected, ids, updateOk);
      }
    }
  }
}

=== FILE: provision_proofs.dfy ===
/**
 * What provisioning guarantees: one new sandbox organization per user, with
 * the shape the plugin builds; each user linked to the organization staged
 * for it; nothing else touched; and the backfill selection shrinking by
 * exactly the users that were linked.
 */
module ProvisionProofs {
  import opened Entities
  import opened Tables
  import opened Lifecycle

  /** The display name determines the user it was made for. */
  lemma SandboxNameDeterminesOwner(a: Username, b: Username)
    requires SandboxName(a) == SandboxName(b)
    ensures a == b
  {
    var s := SandboxName(a);
    assert |a| == |b|;
    assert a == s[9..|s| - 1];
    assert b == s[9..|s| - 1];
  }

  /** A sandbox organization gives its user read, write and admin rights, and nobody else any right. */
  lemma SandboxOrgSoleOwner(id: OrgId, username: Username)
    ensures Rights(SandboxOrg(id, username), username) == {Read, Write, Admin}
    ensures forall v :: v != username ==> Rights(SandboxOrg(id, username), v) == {}
  {
    var granted := [Read, Write, Admin];
    assert granted[0] == Read && granted[1] == Write && granted[2] == Admin;
  }

  /** The ids of a batch of records. */
  function BatchIds(batch: seq<Organization>): set<OrgId> {
    set i | 0 <= i < |batch| :: batch[i].id
  }

  /** The ids of a batch are those of its prefix and of its last record. */
  lemma BatchIdsSnoc(batch: seq<Organization>)
    requires batch != []
    ensures BatchIds(batch) == BatchIds(batch[..|batch| - 1]) + {batch[|batch| - 1].id}
  {
    var n := |batch| - 1;
    forall k | k in BatchIds(batch) ensures k in BatchIds(batch[..n]) + {batch[n].id} {
      var i :| 0 <= i < |batch| && batch[i].id == k;
      if i < n { assert batch[..n][i].id == k; }
    }
    forall k | k in BatchIds(batch[..n]) ensures k in BatchIds(batch) {
      var i :| 0 <= i < n && batch[..n][i].id == k;
      assert batch[i].id == k;
    }
  }

  /** `insertMany` adds the batch's ids to the table's keys. */
  lemma {:induction false} InsertOrgsKeys(orgs: map<OrgId, Organization>, batch: seq<Organization>)
    ensures InsertOrgs(orgs, batch).Keys == orgs.Keys + BatchIds(batch)
    decreases |batch|
  {
    if batch != [] {
      InsertOrgsKeys(orgs, batch[..|batch| - 1]);
      BatchIdsSnoc(batch);
    }
  }

  /** `insertMany` leaves a record whose id is not in the batch as it was. */
  lemma {:induction false} InsertOrgsKeeps(orgs: map<OrgId, Organization>, batch: seq<Organization>, k: OrgId)
    requires k in orgs && k !in BatchIds(batch)
    ensures k in InsertOrgs(orgs, batch) && InsertOrgs(orgs, batch)[k] == orgs[k]
    decreases |batch|
  {
    if batch != [] {
      BatchIdsSnoc(batch);
      InsertOrgsKeeps(orgs, batch[..|batch| - 1], k);
    }
  }

  /** With distinct ids, each record of the batch is stored under its id. */
  lemma {:induction false} InsertOrgsStores(orgs: map<OrgId, Organization>, batch: seq<Organization>, i: nat)
    requires forall i, j | 0 <= i < j < |batch| :: batch[i].id != batch[j].id
    requires i < |batch|
    ensures batch[i].id in InsertOrgs(orgs, batch) && InsertOrgs(orgs, batch)[batch[i].id] == batch[i]
    decreases |batch|
  {
    var n := |batch| - 1;
    if i < n {
      InsertOrgsStores(orgs, batch[..n], i);
      assert batch[..n][i] == batch[i];
      assert batch[i].id != batch[n].id;
    }
  }

  /** `insertMany` stores every record under its own id. */
  lemma {:induction false} InsertOrgsKeyed(orgs: map<OrgId, Organization>, batch: seq<Organization>)
    requires KeyedById(orgs)
    ensures KeyedById(InsertOrgs(orgs, batch))
    decreases |batch|
  {
    if batch != [] {
      InsertOrgsKeyed(orgs, batch[..|batch| - 1]);
    }
  }

  /** Pairwise distinct ids make a set with as many members as the sequence has entries. */
  lemma {:induction false} DistinctIdsCount(ids: seq<OrgId>)
    requires forall i, j | 0 <= i < j < |ids| :: ids[i] != ids[j]
    ensures |set i | 0 <= i < |ids| :: ids[i]| == |ids|
    decreases |ids|
  {
    if ids != [] {
      var n := |ids| - 1;
      DistinctIdsCount(ids[..n]);
      var front := set i | 0 <= i < n :: ids[..n][i];
      assert (set i | 0 <= i < |ids| :: ids[i]) == front + {ids[n]} by {
        forall k | k in (set i | 0 <= i < |ids| :: ids[i]) ensures k in front + {ids[n]} {
          var i :| 0 <= i < |ids| && ids[i] == k;
          if i < n { assert ids[..n][i] == k; }
        }
      }
      assert ids[n] !in front;
    }
  }

  /**
   * A successful batch insert adds exactly the generated ids to the
   * organization table, one new organization per user.
   */
  lemma ProvisionAddsOneOrgPerUser(db: Db, batch: seq<User>, ids: seq<OrgId>, updateOk: seq<bool>)
    requires |ids| == |batch| && |updateOk| == |batch| && FreshIds(ids, db.orgs)
    ensures var r := Provision(db, Stage(batch, ids), ids, true, updateOk);
      && r.orgs.Keys == db.orgs.Keys + (set i | 0 <= i < |ids| :: ids[i])
      && |r.orgs| == |db.orgs| + |batch|
  {
    var toCreate := OrgsToCreate(Usernames(Stage(batch, ids)), ids);
    OrgsToCreateForBatch(batch, ids);
    InsertOrgsKeys(db.orgs, toCreate);
    InsertOrgsSized(db, ids, InsertOrgs(db.orgs, toCreate));
  }

  /**
   * After a successful batch insert, every existing organization is as it
   * was, and under each generated id is the sandbox organization of the user
   * it was generated for, which passes that user's ownership filter.
   */
  lemma ProvisionStoresSandboxOrgs(db: Db, batch: seq<User>, ids: seq<OrgId>, updateOk: seq<bool>)
    requires |ids| == |batch| && |updateOk| == |batch| && FreshIds(ids, db.orgs)
    ensures var r := Provision(db, Stage(batch, ids), ids, true, updateOk);
      && (forall k | k in db.orgs :: k in r.orgs && r.orgs[k] == db.orgs[k])
      && (forall i | 0 <= i < |batch| :: ids[i] in r.orgs && r.orgs[ids[i]] == SandboxOrg(ids[i], batch[i].username))
      && (forall i | 0 <= i < |batch| :: OwnsSandbox(r.orgs, Some(ids[i]), batch[i].username))
  {
    var toCreate := OrgsToCreate(Usernames(Stage(batch, ids)), ids);
    var inserted := InsertOrgs(db.orgs, toCreate);
    OrgsToCreateForBatch(batch, ids);
    forall k | k in db.orgs ensures k in inserted && inserted[k] == db.orgs[k] {
      InsertOrgsKeeps(db.orgs, toCreate, k);
    }
    forall i | 0 <= i < |batch| ensures ids[i] in inserted && inserted[ids[i]] == SandboxOrg(ids[i], batch[i].username) {
      InsertOrgsStores(db.orgs, toCreate, i);
    }
  }

  /** The records staged for a batch: one sandbox organization per user, under the ids generated. */
  lemma OrgsToCreateForBatch(batch: seq<User>, ids: seq<OrgId>)
    requires |ids| == |batch|
    ensures var toCreate := OrgsToCreate(Usernames(Stage(batch, ids)), ids);
      && (forall i | 0 <= i < |batch| :: toCreate[i] == SandboxOrg(ids[i], batch[i].username))
      && BatchIds(toCreate) == set i | 0 <= i < |ids| :: ids[i]
  {
    var staged := Stage(batch, ids);
    var toCreate := OrgsToCreate(Usernames(staged), ids);
    forall i | 0 <= i < |batch| ensures toCreate[i] == SandboxOrg(ids[i], batch[i].username) {
      assert Usernames(staged)[i] == staged[i].username == batch[i].username;
    }
    var newIds := set i | 0 <= i < |ids| :: ids[i];
    forall k | k in newIds ensures k in BatchIds(toCreate) {
      var i :| 0 <= i < |ids| && ids[i] == k;
      assert toCreate[i].id == k;
    }
  }

  /** Inserting fresh ids grows the table by one record per id. */
  lemma InsertOrgsSized(db: Db, ids: seq<OrgId>, inserted: map<OrgId, Organization>)
    requires FreshIds(ids, db.orgs)
    requires inserted.Keys == db.orgs.Keys + (set i | 0 <= i < |ids| :: ids[i])
    ensures |inserted| == |db.orgs| + |ids|
  {
    var newIds := set i | 0 <= i < |ids| :: ids[i];
    DistinctIdsCount(ids);
    assert db.orgs.Keys !! newIds;
    assert |db.orgs.Keys + newIds| == |db.orgs.Keys| + |newIds|;
    assert |inserted| == |inserted.Keys|;
  }

  /** Provisioning keeps every organization stored under its own id. */
  lemma ProvisionKeepsOrgsKeyed(db: Db, staged: seq<User>, ids: seq<OrgId>, insertOk: bool, updateOk: seq<bool>)
    requires |ids| == |staged| && |updateOk| == |staged|
    requires KeyedById(db.orgs)
    ensures KeyedById(Provision(db, staged, ids, insertOk, updateOk).orgs)
  {
    if insertOk {
      InsertOrgsKeyed(db.orgs, OrgsToCreate(Usernames(staged), ids));
    }
  }

  /** The user updates neither add nor remove users. */
  lemma {:induction false} WriteBackKeys(users: map<Username, Option<OrgId>>, staged: seq<User>, updateOk: seq<bool>)
    requires |updateOk| == |staged|
    ensures WriteBack(users, staged, updateOk).Keys == users.Keys
    decreases |staged|
  {
    if staged != [] {
      var n := |staged| - 1;
      WriteBackKeys(users, staged[..n], updateOk[..n]);
    }
  }

  /** A user that no update of the batch names keeps its stored sandbox id. */
  lemma {:induction false} WriteBackOutside(users: map<Username, Option<OrgId>>, staged: seq<User>, updateOk: seq<bool>, name: Username)
    requires |updateOk| == |staged|
    requires forall i | 0 <= i < |staged| :: staged[i].username != name
    requires name in users
    ensures name in WriteBack(users, staged, updateOk)
    ensures WriteBack(users, staged, updateOk)[name] == users[name]
    decreases |staged|
  {
    WriteBackKeys(users, staged, updateOk);
    if staged != [] {
      var n := |staged| - 1;
      WriteBackOutside(users, staged[..n], updateOk[..n], name);
    }
  }

  /** With distinct usernames, a stored user ends with what its own update wrote, if that update succeeded. */
  lemma {:induction false} WriteBackAt(users: map<Username, Option<OrgId>>, staged: seq<User>, updateOk: seq<bool>, i: nat)
    requires |updateOk| == |staged| && DistinctNames(staged)
    requires i < |staged| && staged[i].username in users
    ensures staged[i].username in WriteBack(users, staged, updateOk)
    ensures WriteBack(users, staged, updateOk)[staged[i].username]
         == if updateOk[i] then staged[i].sandbox else users[staged[i].username]
    decreases |staged|
  {
    var n := |staged| - 1;
    WriteBackKeys(users, staged[..n], updateOk[..n]);
    if i == n {
      WriteBackOutside(users, staged[..n], updateOk[..n], staged[n].username);
    } else {
      WriteBackAt(users, staged[..n], updateOk[..n], i);
      assert staged[n].username != staged[i].username;
    }
  }

  /**
   * After provisioning a batch of distinct users, each stored user's sandbox
   * id is the id generated for it when both the insert and its own update
   * succeeded, and what it was before otherwise.
   */
  lemma ProvisionLinksEachUser(db: Db, batch: seq<User>, ids: seq<OrgId>, insertOk: bool, updateOk: seq<bool>, i: nat)
    requires |ids| == |batch| && |updateOk| == |batch| && DistinctNames(batch)
    requires i < |batch| && batch[i].username in db.users
    ensures var r := Provision(db, Stage(batch, ids), ids, insertOk, updateOk);
      && batch[i].username in r.users
      && r.users[batch[i].username] == if insertOk && updateOk[i] then Some(ids[i]) else db.users[batch[i].username]
  {
    if insertOk {
      WriteBackAt(db.users, Stage(batch, ids), updateOk, i);
    }
  }

  /**
   * Provisioning touches no project, element or user outside the batch, adds
   * or removes no user, and changes nothing at all when the insert fails.
   */
  lemma ProvisionFrame(db: Db, batch: seq<User>, ids: seq<OrgId>, insertOk: bool, updateOk: seq<bool>)
    requires |ids| == |batch| && |updateOk| == |batch|
    ensures var r := Provision(db, Stage(batch, ids), ids, insertOk, updateOk);
      && (!insertOk ==> r == db)
      && r.projects == db.projects && r.elements == db.elements
      && r.users.Keys == db.users.Keys
      && (forall name | name in db.users && name !in Usernames(batch) :: r.users[name] == db.users[name])
  {
    var staged := Stage(batch, ids);
    WriteBackKeys(db.users, staged, updateOk);
    forall name | name in db.users && name !in Usernames(batch)
      ensures WriteBack(db.users, staged, updateOk)[name] == db.users[name]
    {
      forall i | 0 <= i < |staged| ensures staged[i].username != name {
        assert Usernames(batch)[i] == staged[i].username;
      }
      WriteBackOutside(db.users, staged, updateOk, name);
    }
  }

  /** Writing a sandbox id for a user takes that user out of the backfill selection. */
  lemma LackingAfterUpdate(users: map<Username, Option<OrgId>>, name: Username, id: OrgId)
    ensures Lacking(UpdateUserSandbox(users, name, Some(id))) == Lacking(users) - {name}
  {
  }

  /** Users whose update wrote a sandbox id leave the backfill selection; no one joins it. */
  lemma {:induction false} WriteBackLacking(users: map<Username, Option<OrgId>>, staged: seq<User>, updateOk: seq<bool>)
    requires |updateOk| == |staged|
    requires forall i | 0 <= i < |staged| :: staged[i].sandbox.Some?
    ensures Lacking(WriteBack(users, staged, updateOk))
         == Lacking(users) - (set i | 0 <= i < |staged| && updateOk[i] :: staged[i].username)
    decreases |staged|
  {
    if staged != [] {
      var n := |staged| - 1;
      var front, frontOk := staged[..n], updateOk[..n];
      WriteBackLacking(users, front, frontOk);
      var before := WriteBack(users, front, frontOk);
      var linked := set i | 0 <= i < |staged| && updateOk[i] :: staged[i].username;
      var linkedBefore := set i | 0 <= i < n && frontOk[i] :: front[i].username;
      var last: set<Username> := if updateOk[n] then {staged[n].username} else {};
      assert linked == linkedBefore + last by {
        forall k | k in linked ensures k in linkedBefore + last {
          var i :| 0 <= i < |staged| && updateOk[i] && staged[i].username == k;
          if i < n { assert frontOk[i] && front[i].username == k; }
        }
        forall k | k in linkedBefore ensures k in linked {
          var i :| 0 <= i < n && frontOk[i] && front[i].username == k;
          assert updateOk[i] && staged[i].username == k;
        }
      }
      if updateOk[n] {
        assert WriteBack(users, staged, updateOk) == UpdateUserSandbox(before, staged[n].username, Some(staged[n].sandbox.value));
        LackingAfterUpdate(before, staged[n].username, staged[n].sandbox.value);
      } else {
        assert WriteBack(users, staged, updateOk) == before;
      }
    }
  }

  /**
   * The backfill selection after provisioning: the users that were selected
   * before, less those whose sandbox id was written back.
   */
  lemma BackfillShrinksSelection(db: Db, batch: seq<User>, ids: seq<OrgId>, insertOk: bool, updateOk: seq<bool>)
    requires |ids| == |batch| && |updateOk| == |batch|
    ensures Lacking(Provision(db, Stage(batch, ids), ids, insertOk, updateOk).users)
         == if insertOk then Lacking(db.users) - (set i | 0 <= i < |batch| && updateOk[i] :: batch[i].username)
            else Lacking(db.users)
  {
    if insertOk {
      var staged := Stage(batch, ids);
      WriteBackLacking(db.users, staged, updateOk);
      assert (set i | 0 <= i < |staged| && updateOk[i] :: staged[i].username)
          == (set i | 0 <= i < |batch| && updateOk[i] :: batch[i].username);
    }
  }

  /**
   * A backfill that selected every user lacking a sandbox and fully
   * succeeded leaves nobody for a second backfill to select.
   */
  lemma BackfillSecondSelectionEmpty(db: Db, names: seq<Username>, ids: seq<OrgId>, updateOk: seq<bool>)
    requires |ids| == |names| && |updateOk| == |names|
    requires forall u | u in Lacking(db.users) :: u in names
    requires forall i | 0 <= i < |updateOk| :: updateOk[i]
    ensures Lacking(Provision(db, Stage(Unlinked(names), ids), ids, true, updateOk).users) == {}
  {
    var batch := Unlinked(names);
    BackfillShrinksSelection(db, batch, ids, true, updateOk);
    forall u | u in Lacking(db.users) ensures u in (set i | 0 <= i < |batch| && updateOk[i] :: batch[i].username) {
      var i :| 0 <= i < |names| && names[i] == u;
      assert updateOk[i] && batch[i].username == u;
    }
  }
}

=== FILE: reclaim_proofs.dfy ===
/**
 * Properties of `deleteSandbox` on a snapshot: what one user's delete chain
 * removes and keeps, what a batch of chains removes, the ownership gate as
 * written and as its comments intend it, and the round trip with creation.
 */
module ReclaimProofs {
  import opened Entities
  import opened Tables
  import opened Lifecycle

  /** Every entry of `small` is an entry of `big`: a table that only lost records. */
  predicate SubMap<K, V(==)>(small: map<K, V>, big: map<K, V>) {
    forall k | k in small :: k in big && small[k] == big[k]
  }

  /** The chain reached `Project.deleteMany`: it ran to the end, or only the element delete rejected. */
  predicate ProjectsDeleted(out: Outcome) {
    out.Done? || out == Rejected(ElementDelete)
  }

  // ---------------------------------------------------------------------------
  // One user's chain
  // ---------------------------------------------------------------------------

  /**
   * The organization delete: users are untouched, no organization is altered,
   * and an organization is removed exactly when the call went through, it is
   * the user's sandbox id and the three-field ownership filter matches it.
   */
  lemma ReclaimUserOrgs(db: Db, u: User, reply: Reply)
    ensures var r := ReclaimUser(db, u, reply).0;
      r.users == db.users && SubMap(r.orgs, db.orgs) &&
      forall k | k in db.orgs ::
        k !in r.orgs <==> reply.rejectAt != Some(OrgDelete) && u.sandbox == Some(k) && OwnsSandbox(db.orgs, u.sandbox, u.username)
  {
  }

  /**
   * How the chain ends: a rejection is always the call the store rejected;
   * with no rejection the chain runs to the end; it warns exactly when the
   * reply is not ok and the filter matched nothing; and a rejected project
   * find is only reached when the chain did not warn.
   */
  lemma ReclaimUserOutcome(db: Db, u: User, reply: Reply)
    ensures var out := ReclaimUser(db, u, reply).1;
      (out.Rejected? ==> reply.rejectAt == Some(out.at)) &&
      (reply.rejectAt == None ==> out.Done?) &&
      (out.Done? ==> (out.warned <==> !reply.ack && !OwnsSandbox(db.orgs, u.sandbox, u.username))) &&
      (reply.rejectAt.Some? && reply.rejectAt != Some(ProjectFind) ==> out == Rejected(reply.rejectAt.value)) &&
      (reply.rejectAt == Some(ProjectFind) ==> (out == Rejected(ProjectFind) <==> reply.ack || OwnsSandbox(db.orgs, u.sandbox, u.username)))
  {
    if reply.rejectAt.Some? {
      match reply.rejectAt.value
      case OrgDelete =>
      case ProjectFind =>
      case ProjectDelete =>
      case ElementDelete =>
    }
  }

  /**
   * The project delete: a project is removed exactly when the chain reached
   * the project delete and the project belongs to the user's sandbox id,
   * whether or not the organization itself was removed.
   */
  lemma ReclaimUserProjects(db: Db, u: User, reply: Reply)
    ensures var (r, out) := ReclaimUser(db, u, reply);
      SubMap(r.projects, db.projects) &&
      forall p | p in db.projects :: p !in r.projects <==> ProjectsDeleted(out) && Some(db.projects[p]) == u.sandbox
  {
  }

  /**
   * The element delete: it uses the project ids captured before the project
   * delete, so an element is removed exactly when the chain ran to the end
   * without warning and its project was under the sandbox id beforehand.
   */
  lemma ReclaimUserElements(db: Db, u: User, reply: Reply)
    ensures var (r, out) := ReclaimUser(db, u, reply);
      SubMap(r.elements, db.elements) &&
      forall e | e in db.elements :: e !in r.elements <==> out == Done(false) && db.elements[e] in ProjectsUnder(db.projects, u.sandbox)
  {
  }

  /**
   * Cascade completeness: once a chain has run to the end no project is left
   * under the sandbox id, and when it did not warn no element is left in any
   * of the projects that were under it.
   */
  lemma ReclaimUserCascade(db: Db, u: User, reply: Reply)
    ensures var (r, out) := ReclaimUser(db, u, reply);
      (out.Done? ==> ProjectsUnder(r.projects, u.sandbox) == {}) &&
      (out == Done(false) ==> forall e | e in r.elements :: r.elements[e] !in ProjectsUnder(db.projects, u.sandbox)) &&
      (out == Done(true) ==> r.elements == db.elements)
  {
    var (r, out) := ReclaimUser(db, u, reply);
    ReclaimUserProjects(db, u, reply);
    ReclaimUserElements(db, u, reply);
    if out.Done? {
      forall p | p in ProjectsUnder(r.projects, u.sandbox) ensures false {
      }
    }
  }

  // ---------------------------------------------------------------------------
  // A batch of chains
  // ---------------------------------------------------------------------------

  /**
   * A batch never touches users and only removes records: every table after
   * the batch is a part of the table before it, and there is one outcome per
   * user.
   */
  lemma {:induction false} ReclaimAllShrinks(db: Db, users: seq<User>, replies: seq<Reply>)
    requires |replies| == |users|
    ensures var (r, outs) := ReclaimAll(db, users, replies);
      |outs| == |users| && r.users == db.users &&
      SubMap(r.orgs, db.orgs) && SubMap(r.projects, db.projects) && SubMap(r.elements, db.elements)
    decreases |users|
  {
    if users != [] {
      var n := |users| - 1;
      ReclaimAllShrinks(db, users[..n], replies[..n]);
      var mid := ReclaimAll(db, users[..n], replies[..n]).0;
      ReclaimUserOrgs(mid, users[n], replies[n]);
      ReclaimUserProjects(mid, users[n], replies[n]);
      ReclaimUserElements(mid, users[n], replies[n]);
    }
  }

  /** A project a batch removes was under the sandbox id of a chain that reached the project delete. */
  lemma {:induction false} ReclaimAllProjectsRemoved(db: Db, users: seq<User>, replies: seq<Reply>)
    requires |replies| == |users|
    ensures var (r, outs) := ReclaimAll(db, users, replies);
      |outs| == |users| &&
      forall p | p in db.projects && p !in r.projects ::
        exists i | 0 <= i < |users| :: ProjectsDeleted(outs[i]) && users[i].sandbox == Some(db.projects[p])
    decreases |users|
  {
    if users != [] {
      var n := |users| - 1;
      ReclaimAllProjectsRemoved(db, users[..n], replies[..n]);
      ReclaimAllShrinks(db, users[..n], replies[..n]);
      var (mid, outs0) := ReclaimAll(db, users[..n], replies[..n]);
      ReclaimUserProjects(mid, users[n], replies[n]);
      var (r, outs) := ReclaimAll(db, users, replies);
      forall p | p in db.projects && p !in r.projects
        ensures exists i | 0 <= i < |users| :: ProjectsDeleted(outs[i]) && users[i].sandbox == Some(db.projects[p])
      {
        if p in mid.projects {
          assert ProjectsDeleted(outs[n]) && users[n].sandbox == Some(db.projects[p]);
        } else {
          var i :| 0 <= i < n && ProjectsDeleted(outs0[i]) && users[..n][i].sandbox == Some(db.projects[p]);
          assert outs[i] == outs0[i] && users[i] == users[..n][i];
        }
      }
    }
  }

  /** Cutting a batch at `n` and then at `i` is cutting it at `i`. */
  lemma PrefixOfPrefix(users: seq<User>, replies: seq<Reply>, n: nat, i: nat)
    requires i < n <= |users| == |replies|
    ensures users[..n][..i] == users[..i] && replies[..n][..i] == replies[..i]
    ensures users[..n][i] == users[i] && replies[..n][i] == replies[i]
  {
  }

  /**
   * An element a batch removes belonged to a project that a chain which ran
   * to the end without warning captured when it started.
   */
  lemma {:induction false} ReclaimAllElementsRemoved(db: Db, users: seq<User>, replies: seq<Reply>)
    requires |replies| == |users|
    ensures var (r, outs) := ReclaimAll(db, users, replies);
      |outs| == |users| &&
      forall e | e in db.elements && e !in r.elements ::
        exists i | 0 <= i < |users| ::
          outs[i] == Done(false) &&
          db.elements[e] in ProjectsUnder(ReclaimAll(db, users[..i], replies[..i]).0.projects, users[i].sandbox)
    decreases |users|
  {
    if users != [] {
      var n := |users| - 1;
      ReclaimAllElementsRemoved(db, users[..n], replies[..n]);
      ReclaimAllShrinks(db, users[..n], replies[..n]);
      var (mid, outs0) := ReclaimAll(db, users[..n], replies[..n]);
      ReclaimUserElements(mid, users[n], replies[n]);
      var (r, outs) := ReclaimAll(db, users, replies);
      forall e | e in db.elements && e !in r.elements
        ensures exists i | 0 <= i < |users| ::
          outs[i] == Done(false) &&
          db.elements[e] in ProjectsUnder(ReclaimAll(db, users[..i], replies[..i]).0.projects, users[i].sandbox)
      {
        if e in mid.elements {
          assert outs[n] == Done(false) && db.elements[e] in ProjectsUnder(mid.projects, users[n].sandbox);
        } else {
          var i :| 0 <= i < n && outs0[i] == Done(false) &&
            db.elements[e] in ProjectsUnder(ReclaimAll(db, users[..n][..i], replies[..n][..i]).0.projects, users[..n][i].sandbox);
          PrefixOfPrefix(users, replies, n, i);
          assert outs[i] == outs0[i];
        }
      }
    }
  }

  /**
   * The frame of a batch: it never touches users and only removes records,
   * with one outcome per user; and nothing else goes: a project is removed
   * only under the sandbox id of a chain that reached the project delete, and
   * an element only when its project was among those a chain that ran to the
   * end without warning captured when it started.
   */
  lemma ReclaimAllFrame(db: Db, users: seq<User>, replies: seq<Reply>)
    requires |replies| == |users|
    ensures var (r, outs) := ReclaimAll(db, users, replies);
      |outs| == |users| && r.users == db.users &&
      SubMap(r.orgs, db.orgs) && SubMap(r.projects, db.projects) && SubMap(r.elements, db.elements) &&
      (forall p | p in db.projects && p !in r.projects ::
         exists i | 0 <= i < |users| :: ProjectsDeleted(outs[i]) && users[i].sandbox == Some(db.projects[p])) &&
      (forall e | e in db.elements && e !in r.elements ::
         exists i | 0 <= i < |users| ::
           outs[i] == Done(false) &&
           db.elements[e] in ProjectsUnder(ReclaimAll(db, users[..i], replies[..i]).0.projects, users[i].sandbox))
  {
    ReclaimAllShrinks(db, users, replies);
    ReclaimAllProjectsRemoved(db, users, replies);
    ReclaimAllElementsRemoved(db, users, replies);
  }

  /**
   * Each user's chain is independent of the others' failures: the i-th
   * outcome is a rejection only at the call the i-th reply rejects, and a
   * user whose calls all succeed has a chain that runs to the end.
   */
  lemma {:induction false} ReclaimAllIsolatesFailures(db: Db, users: seq<User>, replies: seq<Reply>)
    requires |replies| == |users|
    ensures var outs := ReclaimAll(db, users, replies).1;
      |outs| == |users| &&
      forall i | 0 <= i < |users| ::
        (outs[i].Rejected? ==> replies[i].rejectAt == Some(outs[i].at)) && (replies[i].rejectAt == None ==> outs[i].Done?)
    decreases |users|
  {
    ReclaimAllShrinks(db, users, replies);
    if users != [] {
      var n := |users| - 1;
      ReclaimAllIsolatesFailures(db, users[..n], replies[..n]);
      var mid := ReclaimAll(db, users[..n], replies[..n]).0;
      ReclaimUserOutcome(mid, users[n], replies[n]);
    }
  }

  /**
   * The ownership gate over a batch: an organization is removed only if some
   * user of the batch whose delete went through has it as sandbox id, created
   * it, and it is marked as a sandbox.
   */
  lemma {:induction false} ReclaimAllOwnershipGate(db: Db, users: seq<User>, replies: seq<Reply>)
    requires |replies| == |users|
    ensures var r := ReclaimAll(db, users, replies).0;
      forall k | k in db.orgs && k !in r.orgs ::
        exists i | 0 <= i < |users| ::
          users[i].sandbox == Some(k) && users[i].username == db.orgs[k].createdBy &&
          db.orgs[k].sandboxMarked && replies[i].rejectAt != Some(OrgDelete)
    decreases |users|
  {
    if users != [] {
      var n := |users| - 1;
      ReclaimAllOwnershipGate(db, users[..n], replies[..n]);
      ReclaimAllShrinks(db, users[..n], replies[..n]);
      var mid := ReclaimAll(db, users[..n], replies[..n]).0;
      ReclaimUserOrgs(mid, users[n], replies[n]);
      var r := ReclaimAll(db, users, replies).0;
      forall k | k in db.orgs && k !in r.orgs
        ensures exists i | 0 <= i < |users| ::
          users[i].sandbox == Some(k) && users[i].username == db.orgs[k].createdBy &&
          db.orgs[k].sandboxMarked && replies[i].rejectAt != Some(OrgDelete)
      {
        if k in mid.orgs {
          assert users[n].sandbox == Some(k) && replies[n].rejectAt != Some(OrgDelete);
        } else {
          var i :| 0 <= i < n && users[..n][i].sandbox == Some(k) && users[..n][i].username == db.orgs[k].createdBy &&
            db.orgs[k].sandboxMarked && replies[..n][i].rejectAt != Some(OrgDelete);
          assert users[i] == users[..n][i] && replies[i] == replies[..n][i];
        }
      }
    }
  }

  /**
   * The converse: every user of the batch whose delete went through and who
   * owns the sandbox its id names loses that organization, whatever the other
   * chains did.
   */
  lemma {:induction false} ReclaimAllRemovesOwned(db: Db, users: seq<User>, replies: seq<Reply>)
    requires |replies| == |users|
    ensures var r := ReclaimAll(db, users, replies).0;
      forall i | 0 <= i < |users| && replies[i].rejectAt != Some(OrgDelete) && OwnsSandbox(db.orgs, users[i].sandbox, users[i].username) ::
        users[i].sandbox.value !in r.orgs
    decreases |users|
  {
    if users != [] {
      var n := |users| - 1;
      ReclaimAllRemovesOwned(db, users[..n], replies[..n]);
      ReclaimAllShrinks(db, users[..n], replies[..n]);
      var mid := ReclaimAll(db, users[..n], replies[..n]).0;
      ReclaimUserOrgs(mid, users[n], replies[n]);
      forall i | 0 <= i < |users| && replies[i].rejectAt != Some(OrgDelete) && OwnsSandbox(db.orgs, users[i].sandbox, users[i].username)
        ensures users[i].sandbox.value !in ReclaimAll(db, users, replies).0.orgs
      {
        if i < n {
          PrefixOfPrefix(users, replies, n, i);
        }
      }
    }
  }

  /**
   * Cascade completeness over a batch: no project is left under the sandbox
   * id of any user whose chain ran to the end, and no element is left in the
   * projects a chain that ran to the end without warning captured (the ones
   * under its sandbox id when its chain started), later chains included.
   */
  lemma {:induction false} ReclaimAllCascade(db: Db, users: seq<User>, replies: seq<Reply>)
    requires |replies| == |users|
    ensures var (r, outs) := ReclaimAll(db, users, replies);
      |outs| == |users| &&
      (forall i, p | 0 <= i < |users| && outs[i].Done? && p in r.projects :: Some(r.projects[p]) != users[i].sandbox) &&
      (forall i, e | 0 <= i < |users| && outs[i] == Done(false) && e in r.elements ::
         r.elements[e] !in ProjectsUnder(ReclaimAll(db, users[..i], replies[..i]).0.projects, users[i].sandbox))
    decreases |users|
  {
    ReclaimAllShrinks(db, users, replies);
    if users != [] {
      var n := |users| - 1;
      ReclaimAllCascade(db, users[..n], replies[..n]);
      var (mid, outs0) := ReclaimAll(db, users[..n], replies[..n]);
      ReclaimUserProjects(mid, users[n], replies[n]);
      ReclaimUserElements(mid, users[n], replies[n]);
      var (r, outs) := ReclaimAll(db, users, replies);
      forall i, p | 0 <= i < |users| && outs[i].Done? && p in r.projects
        ensures Some(r.projects[p]) != users[i].sandbox
      {
        if i < n {
          assert outs[i] == outs0[i] && users[i] == users[..n][i];
        }
      }
      forall i, e | 0 <= i < |users| && outs[i] == Done(false) && e in r.elements
        ensures r.elements[e] !in ProjectsUnder(ReclaimAll(db, users[..i], replies[..i]).0.projects, users[i].sandbox)
      {
        if i < n {
          PrefixOfPrefix(users, replies, n, i);
          assert outs[i] == outs0[i];
        } else {
          assert users[..i] == users[..n] && replies[..i] == replies[..n];
        }
      }
    }
  }

  /** A batch keeps every organization stored under its own id. */
  lemma {:induction false} ReclaimAllKeepsOrgsKeyed(db: Db, users: seq<User>, replies: seq<Reply>)
    requires |replies| == |users|
    requires KeyedById(db.orgs)
    ensures KeyedById(ReclaimAll(db, users, replies).0.orgs)
  {
    ReclaimAllShrinks(db, users, replies);
  }

  /**
   * With every organization stored under its own id, the ownership gate is
   * the filter on `_id`: an organization the batch removed has as `_id` the
   * sandbox id of a user of the batch who created it and whose delete went
   * through, and it is marked as a sandbox.
   */
  lemma {:induction false} ReclaimAllRemovesByRecordId(db: Db, users: seq<User>, replies: seq<Reply>)
    requires |replies| == |users|
    requires KeyedById(db.orgs)
    ensures var r := ReclaimAll(db, users, replies).0;
      forall k | k in db.orgs && k !in r.orgs ::
        exists i | 0 <= i < |users| ::
          users[i].sandbox == Some(db.orgs[k].id) && users[i].username == db.orgs[k].createdBy &&
          db.orgs[k].sandboxMarked && replies[i].rejectAt != Some(OrgDelete)
  {
    ReclaimAllOwnershipGate(db, users, replies);
  }

  // ---------------------------------------------------------------------------
  // The ownership gate as written and as intended
  // ---------------------------------------------------------------------------

  /**
   * As written, the chain proceeds whenever the store acknowledges the
   * delete, so a user whose sandbox id names an organization the user does
   * not own keeps that organization but loses its projects and their
   * elements.
   */
  lemma ForeignOrganizationLosesItsProjects()
    ensures var team := Organization("o1", "Team", map["bob" := [Read, Write, Admin]], "bob", "bob", false);
      var db := Db(map["alice" := Some("o1"), "bob" := None], map["o1" := team], map["p1" := "o1"], map["e1" := "p1"]);
      var (r, out) := ReclaimUser(db, User("alice", Some("o1")), Reply(true, None));
      !OwnsSandbox(db.orgs, Some("o1"), "alice") &&
      r.orgs == db.orgs && "p1" !in r.projects && "e1" !in r.elements && out == Done(false)
  {
    var team := Organization("o1", "Team", map["bob" := [Read, Write, Admin]], "bob", "bob", false);
    var db := Db(map["alice" := Some("o1"), "bob" := None], map["o1" := team], map["p1" := "o1"], map["e1" := "p1"]);
    assert "p1" in ProjectsUnder(db.projects, Some("o1"));
  }

  /**
   * With the gate the source's comments call for, a chain whose organization delete
   * did not match leaves the whole store as it was.
   */
  lemma GatedReclaimRespectsOwnership(db: Db, u: User, reply: Reply)
    requires !OwnsSandbox(db.orgs, u.sandbox, u.username)
    ensures var (r, out) := ReclaimUserGated(db, u, reply);
      r == db && (out == Done(true) || out == Rejected(OrgDelete))
  {
    assert DeleteOneOrg(db.orgs, u.sandbox, u.username).0 == db.orgs;
  }

  /** Where the ownership filter matches, the gated chain and the chain as written agree. */
  lemma GatedReclaimAgreesWhenOwned(db: Db, u: User, reply: Reply)
    requires OwnsSandbox(db.orgs, u.sandbox, u.username)
    ensures ReclaimUserGated(db, u, reply) == ReclaimUser(db, u, reply)
  {
  }

  // ---------------------------------------------------------------------------
  // Round trip with creation
  // ---------------------------------------------------------------------------

  /** Creating a sandbox for one user with every store call succeeding. */
  lemma ProvisionOne(db: Db, name: Username, id: OrgId)
    requires name in db.users
    ensures Provision(db, Stage([User(name, None)], [id]), [id], true, [true])
         == db.(orgs := db.orgs[id := SandboxOrg(id, name)], users := db.users[name := Some(id)])
  {
    var staged := Stage([User(name, None)], [id]);
    assert staged == [User(name, Some(id))];
    assert Usernames(staged) == [name];
    assert OrgsToCreate([name], [id]) == [SandboxOrg(id, name)];
    assert InsertOrgs(db.orgs, [SandboxOrg(id, name)]) == db.orgs[id := SandboxOrg(id, name)] by {
      assert [SandboxOrg(id, name)][..0] == [];
    }
    assert WriteBack(db.users, staged, [true]) == db.users[name := Some(id)] by {
      assert staged[..0] == [] && [true][..0] == [];
    }
  }

  /**
   * Creating a sandbox for a stored user (with or without a sandbox id
   * already) and then deleting that user's new sandbox, with every store
   * call succeeding, returns organizations, projects and elements to what
   * they were; only the user's new sandbox id remains. The store must be
   * consistent: every project belongs to an existing organization.
   */
  lemma ProvisionThenReclaimRestores(db: Db, name: Username, id: OrgId)
    requires name in db.users
    requires id !in db.orgs
    requires forall p | p in db.projects :: db.projects[p] in db.orgs
    ensures var created := Provision(db, Stage([User(name, None)], [id]), [id], true, [true]);
      created.orgs == db.orgs[id := SandboxOrg(id, name)] &&
      created.users == db.users[name := Some(id)] &&
      ReclaimUser(created, User(name, Some(id)), Reply(true, None)) == (db.(users := db.users[name := Some(id)]), Done(false))
  {
    ProvisionOne(db, name, id);
    var created := db.(orgs := db.orgs[id := SandboxOrg(id, name)], users := db.users[name := Some(id)]);
    assert created.orgs - {id} == db.orgs;
    assert DeleteProjectsUnder(created.projects, Some(id)) == db.projects;
    assert ProjectsUnder(created.projects, Some(id)) == {};
    assert DeleteElementsIn(created.elements, {}) == db.elements;
  }

  // ---------------------------------------------------------------------------
  // Homepage redirect
  // ---------------------------------------------------------------------------

  /**
   * The redirect always targets a path under the root, and that path names
   * the user's sandbox organization exactly when the user has a non-empty
   * sandbox id; otherwise it is the root itself.
   */
  lemma RedirectNamesSandbox(sandbox: Option<OrgId>)
    ensures var path := RedirectPath(sandbox);
      |path| >= 1 && path[0] == '/' &&
      OrgOfPath(path) == (if sandbox.Some? && sandbox.value != "" then sandbox else None) &&
      (path == "/" <==> sandbox.None? || sandbox.value == "")
  {
  }
}

=== FILE: tables.dfy ===
/**
 * The table operations the plugin issues against the entity store, each as a
 * pure function of the table it touches. Filters are exact-match conjunctions;
 * a filter value that is absent (a user without a sandbox id) matches no record,
 * since every stored organization id and every reference field is set.
 */
module Tables {
  import opened Entities

  /**
   * The filter of the sandbox delete: `_id` is the user's sandbox id,
   * `createdBy` is the user and `custom.sandbox` is `true`.
   */
  predicate OwnsSandbox(orgs: map<OrgId, Organization>, id: Option<OrgId>, owner: Username) {
    id.Some? && id.value in orgs && orgs[id.value].createdBy == owner && orgs[id.value].sandboxMarked
  }

  /**
   * `Organization.deleteOne(filter)`: removes the one organization the
   * ownership filter matches, if any, and reports how many were removed.
   */
  function DeleteOneOrg(orgs: map<OrgId, Organization>, id: Option<OrgId>, owner: Username)
    : (r: (map<OrgId, Organization>, nat))
    ensures r.1 <= 1 && (r.1 == 1 <==> OwnsSandbox(orgs, id, owner))
    ensures r.0.Keys == if r.1 == 1 then orgs.Keys - {id.value} else orgs.Keys
    ensures forall k | k in r.0 :: r.0[k] == orgs[k]
  {
    if OwnsSandbox(orgs, id, owner) then (orgs - {id.value}, 1) else (orgs, 0)
  }

  /** `Project.find({ org })` followed by `projects.map(p => p._id)`. */
  function ProjectsUnder(projects: map<ProjectId, OrgId>, org: Option<OrgId>): set<ProjectId> {
    set p | p in projects && Some(projects[p]) == org
  }

  /** `Project.deleteMany({ org })`. */
  function DeleteProjectsUnder(projects: map<ProjectId, OrgId>, org: Option<OrgId>)
    : map<ProjectId, OrgId>
  {
    map p | p in projects && Some(projects[p]) != org :: projects[p]
  }

  /** `Element.deleteMany({ project: { $in: ids } })`. */
  function DeleteElementsIn(elements: map<ElementId, ProjectId>, ids: set<ProjectId>)
    : map<ElementId, ProjectId>
  {
    map e | e in elements && elements[e] !in ids :: elements[e]
  }

  /** `Organization.insertMany(batch)`: each record is stored under its own id. */
  function InsertOrgs(orgs: map<OrgId, Organization>, batch: seq<Organization>)
    : map<OrgId, Organization>
    decreases |batch|
  {
    if batch == [] then orgs
    else
      var last := batch[|batch| - 1];
      InsertOrgs(orgs, batch[..|batch| - 1])[last.id := last]
  }

  /**
   * `User.updateOne({ _id: username }, { custom })`, where the new custom data
   * carries `sandbox`. Without upsert, a username not in the table changes nothing.
   */
  function UpdateUserSandbox(users: map<Username, Option<OrgId>>, username: Username, sandbox: Option<OrgId>)
    : map<Username, Option<OrgId>>
  {
    if username in users then users[username := sandbox] else users
  }

  /** `User.find({ 'custom.sandbox': { $exists: false } })`, as the set of usernames found. */
  function Lacking(users: map<Username, Option<OrgId>>): set<Username> {
    set u | u in users && users[u].None?
  }
}
